=== FILE: README.md ===
# todoism v1 API: bearer-token authentication, in Dafny

This project models the bearer-token path of todoism's v1 JSON API and the small
request decisions around it, and proves properties of that model.

- **Tokens.** `TimedJsonWebToken` stamps `exp`, `nbf` and `iat` (sections 4.1.4–4.1.6 of RFC 7519) when it encodes.
  When it decodes, it refuses a token whose signature fails, a token without `exp`, and a token past its `exp` second.
- **Issue and validate.** `generate_token` issues a one-hour token carrying the user's id.
  `validate_token` resolves a token to a user.
- **The gate.** `get_token` reads the scheme and credential from the `Authorization` header (section 2.1 of RFC 6750).
  The `auth_required` decorator then lets the request through or answers it with an error.
- **Error responses.** `api_abort`, `invalid_token` and `token_missing` shape the JSON error responses.
  The two unauthorised responses carry `WWW-Authenticate: Bearer` (section 3 of RFC 6750).
- **Resource views.** These cover the password-grant exchange (section 4.3 of RFC 6749) with its no-store/no-cache headers (section 5.1).
  They also cover item-body validation, the ownership gate of `ItemAPI` with the put/patch/delete effects, item creation, clearing completed items, and the pagination links.
- **Extensions.** `load_user` and the `get_locale` priority chain.

The signing library is a record of two function values, `sign` and `verify` (`Jwt.Jws`). The only assumptions about it are the ghost predicates `Sound` and `Compact`:

- `Sound` means that verifying with the signing key returns the signed claims.
- `Compact` means that tokens are made of base64url characters and dots.

The clock is an integer parameter `now`. The user table and the item table are maps.
The username query, the password check and `Accept-Language` matching are function parameters.

Modules, one per file:

| file | module | models |
|---|---|---|
| optional.dfy | `Optional` | `None`, exceptions as values, `dict.get` |
| text.dfy | `Text` | Python's `isspace`, `split(None, 1)`, `strip`, `lower`, `str(int)`, `int(str)` |
| models.dfy | `Models` | users, items, JSON scalars |
| http.dfy | `Http` | responses, `url_for` targets, the reason-phrase table |
| errors.dfy | `Errors` | todoism/apis/v1/errors.py |
| jwt.dfy | `Jwt` | `TimedJsonWebToken` in todoism/apis/v1/auth.py |
| auth.dfy | `Auth` | the rest of todoism/apis/v1/auth.py |
| resources.dfy | `Resources` | todoism/apis/v1/resources.py |
| extensions.dfy | `Extensions` | todoism/extensions.py |

The model keeps these behaviours of the code as written:

- A request without an `Authorization` header, or with a one-word header, is answered with **400** "The token type must be bearer." (`Auth.GateWithoutCredential`). Section 3.1 of RFC 6750 suggests a bare 401 with a challenge for a request that carries no credentials; the gate never gives it.
- The `token_missing()` response is defined but never produced by the gate (`Auth.TokenMissingUnreachable`).
- A successful token exchange answers 200 with `Cache-Control: no-store` and `Pragma: no-cache`, as section 5.1 of RFC 6749 describes.
- `validate_token` returns a boolean, so the user-lookup miss, the expiry and the signature failure all reach the client as the same 401 `invalid_token`.
- A token without an `id` claim that is signed with the key and not expired raises `KeyError` in `validate_token`. That error escapes to the framework as a 500 (`Auth.ServerError`). Tokens issued by `generate_token` never hit this case (`Auth.IssueThenValidate`).

## Model

| member | source | states |
|---|---|---|
| `Optional.Get` | todoism/apis/v1/resources.py:40-42 | `request.form.get` and `User.query.get` give a value exactly when the key is present, and then the stored one. An absent key gives `None`, not an error. |
| `Text.SplitOnce` | todoism/apis/v1/auth.py:82 | `split(None, 1)` gives at most two non-empty parts. It gives none exactly for a blank header. The first part has no whitespace and the second starts with a non-space. |
| `Text.SplitOnceTwoParts` | todoism/apis/v1/auth.py:82-85 | The split has two parts `[w, t]` exactly when the header is whitespace, then the word `w`, then a non-empty whitespace run, then `t`. Both directions are proved. |
| `Text.Lower` | todoism/apis/v1/auth.py:99 | `lower()` keeps the length and lower-cases each ASCII letter at its position, leaving every other character as it is. `Text.LowerMatchesEitherCase` gives what comparing the result against `bearer` or `password` accepts. |
| `Text.Strip` | todoism/apis/v1/resources.py:15 | `strip()` is `s` with a whitespace prefix and a whitespace suffix cut off. It is empty exactly for an all-whitespace string, and otherwise starts and ends with a non-space, so the cut whitespace runs are the longest ones. |
| `Text.LowerMatchesEitherCase` | todoism/apis/v1/auth.py:99 | Comparing `lower()` against a lower-case word accepts exactly the spellings of that word with each letter in either case. |
| `Text.ParseInt` | todoism/extensions.py:19 | `int()` refuses a blank string, and any string holding one of U+001C to U+001F, whatever else it holds: `isspace` accepts those four, but `int()` never skips them. A negative result comes only from text whose first non-space character is `-`. `Text.IntToStringRoundTrip` gives its meaning on the strings `str()` produces. |
| `Text.SeparatorRefusedBesideUnicode` | todoism/extensions.py:19 | `int()` refuses `"\x1c5"` and `"\x1c5\u3000"`, but reads `"\u30005"` as 5: a separator is refused even beside a non-ASCII character, while non-ASCII whitespace is skipped. |
| `Text.IntToStringRoundTrip` | todoism/extensions.py:19 | `int(str(i)) == i` for every integer. |
| `Errors.AbortMessage` | todoism/apis/v1/errors.py:8-9 | A given message is used verbatim. Without one, the message is the reason phrase of a known code, or `''` for an unknown code. |
| `Errors.ApiAbort` | todoism/apis/v1/errors.py:7-13 | The HTTP status and the body's `code` both equal the code, and there are no extra headers. The body holds exactly `code`, `message` and every extra field with its value. |
| `Errors.InvalidToken` | todoism/apis/v1/errors.py:16-19 | The status is 401 with `error='invalid_token'` and the fixed description. The header is `WWW-Authenticate: Bearer`. |
| `Errors.TokenMissing` | todoism/apis/v1/errors.py:22-25 | The status is 401 with the default message `Unauthorized` and no `error` field. The header is `WWW-Authenticate: Bearer`. |
| `Errors.ValidationError` | todoism/apis/v1/errors.py:32-35 | A `ValidationError(msg)` becomes a 400 whose message is `msg`. |
| `Errors.UnauthorizedResponsesDiffer` | todoism/apis/v1/errors.py:16-25 | The two 401 responses always differ, so a client can tell them apart. |
| `Jwt.Lifetime` | todoism/apis/v1/auth.py:23-30 | A falsy expiration (`None` or `0`) becomes 3600. Any other value, negative included, is kept. |
| `Jwt.Stamp` | todoism/apis/v1/auth.py:31-34 | The signed payload has `exp == now + lifetime` and `nbf == iat == now`, overwriting the caller's values. Every other key is unchanged, and no key is added besides the three. |
| `Jwt.Encode` | todoism/apis/v1/auth.py:28-34 | With a sound signer the token verifies to exactly the stamped payload, and with a compact signer it is a compact serialization. `Jwt.EncodeDecode` states what `decode` then returns at every second. |
| `Jwt.CheckExpiry` | todoism/apis/v1/auth.py:43-49 | The result is `MissingExp` exactly when `exp` is absent or null, whatever the clock says. It is `Expired` exactly when `exp < now`. Otherwise the claims come back untouched. |
| `Jwt.Decode` | todoism/apis/v1/auth.py:36-49 | A signature or structure failure is reported as `SigFail` before any claim is read. Otherwise the result is the claim check on the verified claims. |
| `Jwt.ExpiryBoundary` | todoism/apis/v1/auth.py:46-48 | A token is accepted exactly up to and including its `exp` second. It is expired one second later. |
| `Jwt.ExpiryReadsOnlyExp` | todoism/apis/v1/auth.py:43-49 | Claim sets that agree on `exp` get the same verdict, so `nbf` and `iat` are never inspected. |
| `Jwt.ValidEarlier` | todoism/apis/v1/auth.py:46-48 | A token valid at some second was valid, with the same claims, at every earlier second. |
| `Jwt.EncodeDecode` | todoism/apis/v1/auth.py:28-49 | With a sound signer, decoding an encoded payload gives the stamped claims until `now + lifetime`. After that it gives `Expired`. |
| `Auth.IssuedClaims` | todoism/apis/v1/auth.py:52-59 | An issued token carries exactly `id`, `exp`, `nbf` and `iat`. `id` is the user's id and `exp` is one hour ahead. |
| `Auth.GenerateToken` | todoism/apis/v1/auth.py:52-59 | The expiration returned is always 3600. With a sound signer the token verifies to exactly the issued claims. |
| `Auth.LookupClaim` | todoism/apis/v1/auth.py:69 | The `id` claim finds a user exactly when it is an integer key of the user table. A `null` id finds nobody. |
| `Auth.ValidateToken` | todoism/apis/v1/auth.py:62-74 | Any decode failure gives `False`, and so does a lookup miss. A verified token without `id` raises `KeyError`. On success the current user is the lookup of the token's `id`. |
| `Auth.IssueThenValidate` | todoism/apis/v1/auth.py:52-74 | A token issued for a user who is still stored resolves to that user at every second up to one hour after issue. Earlier seconds count too, because `nbf` is not checked. |
| `Auth.IssuedTokenRejected` | todoism/apis/v1/auth.py:62-71 | An issued token is refused after its hour. It is also refused once its user is gone. |
| `Auth.GetToken` | todoism/apis/v1/auth.py:77-89 | The scheme and the credential are both present or both absent. They are present exactly when the header splits into two parts, and they are those parts. |
| `Auth.GetTokenParts` | todoism/apis/v1/auth.py:80-89 | `get_token` returns `(scheme, token)` exactly when the header is a word, whitespace and a non-blank rest. The token keeps its inner and trailing whitespace. Both directions are proved. |
| `Auth.NotBearer` | todoism/apis/v1/auth.py:99-100 | The answer to a missing or non-bearer scheme is 400 "The token type must be bearer.". |
| `Auth.Gate` | todoism/apis/v1/auth.py:92-107 | OPTIONS always proceeds with no user. Otherwise a missing or non-bearer scheme gets the 400. A `Rejected` token gets the 401 `invalid_token`. The `KeyError` gives a server error. The handler runs exactly when validation authenticates, and it runs as that user. |
| `Auth.TokenMissingUnreachable` | todoism/apis/v1/auth.py:101-102 | No request, whatever its method, header or clock, is answered with `token_missing()`. |
| `Auth.GateWithoutCredential` | todoism/apis/v1/auth.py:95-100 | With no header, or a header of fewer than two parts, a non-OPTIONS request gets 400, not 401. |
| `Auth.SchemeCaseInsensitive` | todoism/apis/v1/auth.py:99 | The accepted schemes are exactly the six-letter spellings of `bearer` in any mix of cases. |
| `Auth.BasicSchemeRefused` | todoism/apis/v1/auth.py:99-100 | `Authorization: Basic abc` gets the 400, not a 401. |
| `Auth.BearerHeaderParts` | todoism/apis/v1/auth.py:82 | `Bearer <token>` with a compact token splits into the scheme `Bearer` and that exact token. |
| `Auth.GateAdmitsIssuedToken` | todoism/apis/v1/auth.py:95-105 | A freshly issued token, presented as a bearer credential within the hour, runs the handler as its user. |
| `Auth.GateRefusesBadToken` | todoism/apis/v1/auth.py:103-104 | A token that fails the signature, is expired, or names a deleted user gets the same 401 `invalid_token`. |
| `Auth.GateRefusesExpiredToken` | todoism/apis/v1/auth.py:65-67 | An issued token presented after its hour gets the 401 `invalid_token`. |
| `Resources.PyStr` | todoism/apis/v1/resources.py:15 | `str()` of a string is the string itself. For `null`, a boolean or a number it is a non-empty text without whitespace, so only a string body can be blank after `strip()`. |
| `Resources.GetItemBody` | todoism/apis/v1/resources.py:12-17 | The body is accepted exactly when it is present, not null, and its `str()` is non-blank after `strip()`. An accepted body is returned unchanged. A refused one raises the fixed validation message. |
| `Resources.GetItemBodyRefuses` | todoism/apis/v1/resources.py:15-16 | Only a missing body, `null`, or an all-whitespace string is refused. Numbers and booleans always pass. |
| `Resources.Authenticate` | todoism/apis/v1/resources.py:47-48 | A user is identified exactly when the username lookup finds someone and that user's password check succeeds. |
| `Resources.ExchangeToken` | todoism/apis/v1/resources.py:39-61 | A missing or non-`password` grant type gets 400. A bad username or password gets 400 with the other message. Success is exactly a password grant with good credentials. It returns a `Bearer` token for that user, `expires_in` 3600, and the no-store and no-cache headers. |
| `Resources.GrantCheckedFirst` | todoism/apis/v1/resources.py:44-45 | With a wrong grant type, the answer is 400 and does not depend on the user lookup, the password check or the signer. |
| `Resources.BadCredentialsIndistinguishable` | todoism/apis/v1/resources.py:47-49 | An unknown user and a wrong password get the same 400. The answer does not depend on the signer, so no token is made. |
| `Resources.ExchangedTokenAdmits` | todoism/apis/v1/resources.py:51-57 | The `access_token` of a successful exchange, presented as a bearer credential within the hour, passes `auth_required` as the authenticated user. |
| `Resources.Forbidden` | todoism/apis/v1/resources.py:71 | Refusing a non-author gives 403 with the default message `Forbidden`. |
| `Resources.GetItem` | todoism/apis/v1/resources.py:68-72 | A missing item gets 404 and another user's item gets 403. The author gets the item. |
| `Resources.PutItem` | todoism/apis/v1/resources.py:74-81 | A missing item gets 404 and a non-author gets 403, both before the body is read. A bad body gets 400. In all three cases the table is unchanged. Otherwise only that item's body is replaced and the answer is 204. |
| `Resources.PatchItem` | todoism/apis/v1/resources.py:83-90 | Gives 404 or 403 as for `put`, with the table unchanged. Otherwise only that item's `done` flips and the answer is 204. |
| `Resources.PatchTwiceRestores` | todoism/apis/v1/resources.py:88 | Two patches by the same caller give back the original table. |
| `Resources.DeleteItem` | todoism/apis/v1/resources.py:92-98 | Gives 404 or 403 with the table unchanged. Otherwise exactly that item is removed, the rest are unchanged, and the answer is 204. |
| `Resources.NonAuthorChangesNothing` | todoism/apis/v1/resources.py:68-98 | On get, put, patch and delete, a caller who is not the author gets 403 and the table is unchanged. |
| `Resources.CreateItem` | todoism/apis/v1/resources.py:128-136 | A bad body gets 400 and the table is unchanged. Otherwise one new item is added under the fresh key: the body, not done, authored by the caller. The answer is 201 with the item and a `Location` pointing at it. |
| `Resources.ClearCompleted` | todoism/apis/v1/resources.py:176-182 | Exactly the caller's done items are removed. Other users' items and the caller's active items stay unchanged. The answer is 204. |
| `Resources.ClearCompletedIdempotent` | todoism/apis/v1/resources.py:176-182 | Clearing a second time changes nothing. |
| `Resources.ClearCompletedLoop` | todoism/apis/v1/resources.py:178-181 | Deleting the fetched items one at a time leaves the same table as `ClearCompleted`. |
| `Resources.PageLinksAsWritten` | todoism/apis/v1/resources.py:148-154 | As written, every listing view's links point at the all-items view: `current` at page `page`, `prev` at `page-1` and `next` at `page+1`. `prev` and `next` are present exactly when there is such a page. |
| `Resources.ActiveLinksLeaveView` | todoism/apis/v1/resources.py:148-154 | As written, the `next` link of the first active-items page leads to page 2 of all items. The same kind of mismatch holds for the completed-items `prev` link. |
| `Resources.PageLinks` | todoism/apis/v1/resources.py:117-125 | `current` points at the page itself. `prev` is present exactly when there is a previous page and points at `page-1`. `next` is present exactly when there is a next page and points at `page+1`. All links stay on the listing being paged. |
| `Resources.AsWrittenAgreesOnItems` | todoism/apis/v1/resources.py:117-125 | The written links equal the intended ones on the all-items listing. On the other listings they differ. |
| `Resources.NextChain` | todoism/apis/v1/resources.py:117-125 | A client that starts on a page of a listing and follows the `next` links, endpoint and page, until there are none visits `Url(view, page)`, `Url(view, page+1)`, … up to the last page: every later page of that same listing, once each and in order. `has_prev` and `has_next` are taken as Flask-SQLAlchemy defines them. |
| `Extensions.LoadUser` | todoism/extensions.py:16-19 | An id that `int()` cannot read raises `ValueError`; that includes a blank id and any id holding one of U+001C to U+001F. Otherwise the user is the lookup of the converted id. |
| `Extensions.LoadUserRoundTrip` | todoism/extensions.py:16-19 | Loading `str(id)` finds that user's row, and finds nobody once the row is gone. |
| `Extensions.GetLocale` | todoism/extensions.py:22-32 | The order is: a signed-in user's own locale, then the `locale` cookie, then the best match among the configured locales. |
| `Extensions.UserLocaleWins` | todoism/extensions.py:25-26 | A user who chose a locale gets it, whatever the cookie and `Accept-Language` say. |
| `Extensions.UnsetLocaleIsAnonymous` | todoism/extensions.py:25-30 | A signed-in user without a locale gets exactly what an anonymous visitor with the same cookies and headers gets. |

## Findings

| source | as written | input that shows it | evidently intended | confidence | as-written member | corrected member |
|---|---|---|---|---|---|---|
| todoism/apis/v1/resources.py:148-154 | `ActiveItemsAPI.get` (and `CompletedItemsAPI.get`, lines 167-173) builds `current`, `prev` and `next` with `url_for('.items', ...)` | page 1 of the active items when there is a next page: `next` is page 2 of *all* items | each listing's links stay on that listing (`.active_items`, `.completed_items`) | medium, not executed | `Resources.PageLinksAsWritten` | `Resources.PageLinks` |

## Left out

- HS256 signing and verification, JOSE header handling, authlib's check for sensitive claim names, and the conversion of `datetime` to timestamps all happen inside the signing library. They are replaced by the `sign` and `verify` functions and by integer seconds.
- The wall clock is replaced by the parameter `now`. `encode` reads it three times; the model reads it once. `decode` uses `int(time.time())`, which the model takes as the same integer.
- Claim values are `null` or integers. String, float or boolean `exp` and `id` claims, and the exceptions `int()` raises on them, are not modelled.
- The request's JSON body is taken to be an object of scalar values. Non-JSON bodies, arrays, nested objects and floats are not modelled.
- `lower()` is modelled on ASCII letters only. The words compared against, `bearer` and `password`, contain no letter that a non-ASCII character lowercases to.
- Text.ParseInt: `int()` is modelled for ASCII digits only. In a string holding a non-ASCII character, CPython first turns every other Unicode decimal digit into its ASCII digit; those digits are not modelled and such a string is refused.
- The request framework (`request`, `g`, `jsonify` headers such as `Content-Type`, `url_for` rendering with the external host, CORS, method dispatch) is not modelled. The gate's decision is modelled; running the wrapped view is not.
- The SQLAlchemy queries and `paginate` are not modelled. `Resources.NextChain` takes the page count as a parameter and uses Flask-SQLAlchemy's `has_prev` (`page > 1`) and `has_next` (`page < pages`); `paginate`'s 404 for a page out of range is not modelled. The item listings (`get` of the three listing views) are modelled only through their links. `item_schema`, `items_schema` and `user_schema` (schemas.py) are not part of this model; `Http.ItemDoc` stands for the serialised item.
- The `get` of `UserAPI` and the static JSON of `IndexAPI` have no decision logic and are not modelled.
- `Resources.CreateItem`: the fresh primary key comes from the database and is a parameter. A new item is taken to start as not done, because the `Item` column default (models.py) is not part of this model.
- Password hashing (`validate_password`) and the username query are parameters. Babel's `Accept-Language` matching is the parameter `bestMatch`.
- The application factory, the HTML error pages, the CLI commands, the template context, and the configuration constants (settings.py) are I/O or configuration. They are not modelled; the secret key is the parameter `key`.
- todoism/apis/v1/test.py is a scratch script that repeats `encode` and is not modelled.
- Jwt.Stamp: `encode` computes `utcnow() + timedelta(seconds=expiration)`, which raises `OverflowError` once the sum leaves `datetime`'s range (years 1 to 9999), for example for `expiration = 10**12`. The model stamps `now + Lifetime(expiration)` for every integer, and `Jwt.EncodeDecode` promises a decodable token in that case too. `generate_token` always passes 3600, so no request reaches the overflow.
- werkzeug's reason-phrase table is written out as `Http.StatusPhrase`. It follows werkzeug 1.x; other werkzeug versions may add entries.

=== FILE: auth.dfy ===
/** The bearer-token path of the v1 API: issuing a token for a user,
    validating one, reading it from the `Authorization` header (section 2.1
    of RFC 6750), and the `auth_required` gate in front of every protected
    view. */
module Auth {

  import opened Optional
  import opened Text
  import opened Models
  import opened Http
  import opened Jwt
  import Errors

  /** `generate_token`'s result: the token and its lifetime in seconds. */
  datatype Issued = Issued(token: string, expiresIn: int)

  /** The claims `generate_token` signs for `user` at `now`. */
  function IssuedClaims(user: User, now: int): (c: Claims)
    ensures c.Keys == {"id", "exp", "nbf", "iat"}
    ensures c["id"] == Num(user.id) && c["exp"] == Num(now + DefaultExpiration)
  {
    Stamp(map["id" := Num(user.id)], now, Some(DefaultExpiration))
  }

  /** `generate_token(user)`: a one-hour token whose only caller-chosen
      claim is the user's id. */
  function GenerateToken(jws: Jws, key: string, user: User, now: int): (r: Issued)
    ensures r.expiresIn == DefaultExpiration
    ensures Sound(jws) ==> jws.verify(key, r.token) == Some(IssuedClaims(user, now))
  {
    Issued(Encode(jws, key, map["id" := Num(user.id)], now, Some(DefaultExpiration)), DefaultExpiration)
  }

  /** `User.query.get(data['id'])`; a `null` id finds nobody. */
  function LookupClaim(users: Users, id: Claim): (r: Option<User>)
    ensures r.Some? <==> id.Num? && id.n in users
    ensures r.Some? ==> r.value == users[id.n]
  {
    match id
    case Null => None
    case Num(n) => Get(users, n)
  }

  /** `validate_token`: `Authenticated` is its `True` with `g.current_user`
      set, `Rejected` its `False`, and `MissingId` the `KeyError` a signed,
      unexpired token without an `id` claim raises. */
  datatype Validation = Authenticated(user: User) | Rejected | MissingId

  function ValidateToken(jws: Jws, key: string, users: Users, token: string, now: int): (r: Validation)
    ensures !Decode(jws, key, token, now).Valid? ==> r == Rejected
    ensures Decode(jws, key, token, now).Valid? ==>
      var c := Decode(jws, key, token, now).claims;
      && (r == MissingId <==> "id" !in c)
      && (r.Authenticated? <==> "id" in c && LookupClaim(users, c["id"]).Some?)
      && (r.Authenticated? ==> r.user == LookupClaim(users, c["id"]).value)
  {
    match Decode(jws, key, token, now)
    case Valid(c) =>
      if "id" !in c then MissingId
      else if LookupClaim(users, c["id"]).None? then Rejected
      else Authenticated(LookupClaim(users, c["id"]).value)
    case _ => Rejected
  }

  /** A token issued for a user still in the table resolves to that user at
      any second up to one hour after issue; `nbf` is never checked, so
      earlier seconds count too. */
  lemma {:induction false} IssueThenValidate(jws: Jws, key: string, users: Users, user: User, now: int, later: int)
    requires Sound(jws)
    requires user.id in users
    requires later <= now + DefaultExpiration
    ensures ValidateToken(jws, key, users, GenerateToken(jws, key, user, now).token, later)
      == Authenticated(users[user.id])
  {
    var c := IssuedClaims(user, now);
    assert Decode(jws, key, GenerateToken(jws, key, user, now).token, later) == Valid(c);
  }

  /** After its hour, or once its user is gone, an issued token is refused;
      an issued token never reaches the `KeyError`. */
  lemma {:induction false} IssuedTokenRejected(jws: Jws, key: string, users: Users, user: User, now: int, later: int)
    requires Sound(jws)
    requires later > now + DefaultExpiration || user.id !in users
    ensures ValidateToken(jws, key, users, GenerateToken(jws, key, user, now).token, later) == Rejected
  {
    var c := IssuedClaims(user, now);
    var d := Decode(jws, key, GenerateToken(jws, key, user, now).token, later);
    assert d == CheckExpiry(c, later);
  }

  /** `get_token()`: the scheme and the credential, both or neither. */
  function GetToken(authorization: Option<string>): (r: (Option<string>, Option<string>))
    ensures r.0.None? <==> r.1.None?
    ensures r.0.Some? <==> authorization.Some? && |SplitOnce(authorization.value)| == 2
    ensures r.0.Some? ==> SplitOnce(authorization.value) == [r.0.value, r.1.value]
  {
    match authorization
    case None => (None, None)
    case Some(h) =>
      var parts := SplitOnce(h);
      if |parts| == 2 then (Some(parts[0]), Some(parts[1])) else (None, None)
  }

  /** The header yields a scheme and a credential exactly when it is a word,
      whitespace, and a non-blank rest; the credential keeps any inner and
      trailing whitespace. */
  lemma {:induction false} GetTokenParts(header: string, scheme: string, token: string)
    ensures GetToken(Some(header)) == (Some(scheme), Some(token)) <==> WordThenRest(header, scheme, token)
  {
    SplitOnceTwoParts(header, scheme, token);
  }

  const BearerMessage := "The token type must be bearer."

  /** The 400 the gate answers when no bearer scheme is presented. */
  function NotBearer(): (r: Response)
    ensures r.status == 400
    ensures r.body == Fields(map["code" := JInt(400), "message" := JStr(BearerMessage)])
  {
    Errors.ApiAbort(400, Some(BearerMessage), map[])
  }

  /** `token_type.lower() == 'bearer'`. */
  predicate IsBearer(scheme: Option<string>) {
    scheme.Some? && Lower(scheme.value) == "bearer"
  }

  /** What `auth_required` does with a request: run the view (with
      `g.current_user` set, or unset for `OPTIONS`), answer in its place, or
      let the `KeyError` escape to the framework's 500. */
  datatype Decision = Proceed(user: Option<User>) | Abort(response: Response) | ServerError

  /** The `auth_required` decorator for a request with this method and this
      `Authorization` header at second `now`. */
  function Gate(jws: Jws, key: string, users: Users, verb: string, authorization: Option<string>, now: int): (d: Decision)
    ensures verb == "OPTIONS" ==> d == Proceed(None)
    ensures verb != "OPTIONS" && !IsBearer(GetToken(authorization).0) ==> d == Abort(NotBearer())
    ensures verb != "OPTIONS" && IsBearer(GetToken(authorization).0) ==>
      var v := ValidateToken(jws, key, users, GetToken(authorization).1.value, now);
      && (d.Proceed? <==> v.Authenticated?)
      && (d.Proceed? ==> d.user == Some(v.user))
      && (v == Rejected <==> d == Abort(Errors.InvalidToken()))
      && (v == MissingId <==> d == ServerError)
  {
    var (scheme, token) := GetToken(authorization);
    if verb == "OPTIONS" then Proceed(None)
    else if scheme.None? || Lower(scheme.value) != "bearer" then Abort(NotBearer())
    else if token.None? then Abort(Errors.TokenMissing())
    else match ValidateToken(jws, key, users, token.value, now)
      case Authenticated(u) => Proceed(Some(u))
      case Rejected => Abort(Errors.InvalidToken())
      case MissingId => ServerError
  }

  /** `get_token` never returns a scheme without a credential, so the
      `token_missing()` branch of `auth_required` is dead: no request is
      answered with it. */
  lemma {:induction false} TokenMissingUnreachable(jws: Jws, key: string, users: Users, verb: string, authorization: Option<string>, now: int)
    ensures Gate(jws, key, users, verb, authorization, now) != Abort(Errors.TokenMissing())
  {
    Errors.UnauthorizedResponsesDiffer();
    assert NotBearer().status == 400;
  }

  /** Without an `Authorization` header, or with a one-word one, a
      non-`OPTIONS` request is answered 400, not 401. */
  lemma {:induction false} GateWithoutCredential(jws: Jws, key: string, users: Users, verb: string, authorization: Option<string>, now: int)
    requires verb != "OPTIONS"
    requires authorization.None? || |SplitOnce(authorization.value)| < 2
    ensures Gate(jws, key, users, verb, authorization, now) == Abort(NotBearer())
  {
  }

  /** The scheme is matched in any letter case. */
  lemma {:induction false} SchemeCaseInsensitive(scheme: string)
    ensures Lower(scheme) == "bearer" <==>
      |scheme| == 6 && forall i :: 0 <= i < 6 ==> scheme[i] == "bearer"[i] || scheme[i] == UpperChar("bearer"[i])
  {
    var word := "bearer";
    assert word[0] == 'b' && word[1] == 'e' && word[2] == 'a' && word[3] == 'r' && word[4] == 'e' && word[5] == 'r';
    LowerMatchesEitherCase(scheme, word);
  }

  /** `Authorization: Basic abc` is a client error, not an unauthorised one. */
  lemma {:induction false} BasicSchemeRefused(jws: Jws, key: string, users: Users, now: int)
    ensures Gate(jws, key, users, "GET", Some("Basic abc"), now) == Abort(NotBearer())
  {
    SplitOnceAt("Basic abc", 0, 5, 6);
  }

  lemma {:induction false} LowerBearer()
    ensures Lower("Bearer") == "bearer"
  {
    var r := Lower("Bearer");
    assert r[0] == 'b' && r[1] == 'e' && r[2] == 'a' && r[3] == 'r' && r[4] == 'e' && r[5] == 'r';
  }

  /** The header a client builds from an issued token. */
  function BearerHeader(token: string): string {
    "Bearer " + token
  }

  lemma {:induction false} BearerHeaderParts(token: string)
    requires CompactToken(token)
    ensures GetToken(Some(BearerHeader(token))) == (Some("Bearer"), Some(token))
    ensures IsBearer(Some("Bearer"))
  {
    CompactTokenHasNoSpace(token);
    assert Separates(BearerHeader(token), "", "Bearer", " ", token);
    GetTokenParts(BearerHeader(token), "Bearer", token);
    LowerBearer();
  }

  /** A freshly issued token, sent back as `Bearer <token>`, lets a protected
      request through as its user for one hour. */
  lemma {:induction false} GateAdmitsIssuedToken(jws: Jws, key: string, users: Users, user: User, verb: string, now: int, later: int)
    requires Sound(jws) && Compact(jws)
    requires user.id in users
    requires verb != "OPTIONS"
    requires later <= now + DefaultExpiration
    ensures var token := GenerateToken(jws, key, user, now).token;
      Gate(jws, key, users, verb, Some(BearerHeader(token)), later) == Proceed(Some(users[user.id]))
  {
    var token := GenerateToken(jws, key, user, now).token;
    BearerHeaderParts(token);
    IssueThenValidate(jws, key, users, user, now, later);
  }

  /** An expired token, a token of a deleted user, and a token whose
      signature does not verify all get the same 401 `invalid_token`. */
  lemma {:induction false} GateRefusesBadToken(jws: Jws, key: string, users: Users, verb: string, token: string, now: int)
    requires verb != "OPTIONS"
    requires CompactToken(token)
    requires ValidateToken(jws, key, users, token, now) == Rejected
    ensures Gate(jws, key, users, verb, Some(BearerHeader(token)), now) == Abort(Errors.InvalidToken())
  {
    BearerHeaderParts(token);
  }

  lemma {:induction false} GateRefusesExpiredToken(jws: Jws, key: string, users: Users, user: User, verb: string, now: int, later: int)
    requires Sound(jws) && Compact(jws)
    requires verb != "OPTIONS"
    requires later > now + DefaultExpiration
    ensures var token := GenerateToken(jws, key, user, now).token;
      Gate(jws, key, users, verb, Some(BearerHeader(token)), later) == Abort(Errors.InvalidToken())
  {
    var token := GenerateToken(jws, key, user, now).token;
    IssuedTokenRejected(jws, key, users, user, now, later);
    GateRefusesBadToken(jws, key, users, verb, token, later);
  }
}

=== FILE: errors.dfy ===
/** The JSON error responses of the API: `api_abort` and the two
    `WWW-Authenticate: Bearer` challenges of section 3 of RFC 6750. */
module Errors {

  import opened Optional
  import opened Models
  import opened Http

  /** The `message` field `api_abort` writes: the caller's text, else the
      reason phrase of the status, else the empty string. */
  function AbortMessage(code: int, message: Option<string>): (m: string)
    ensures message.Some? ==> m == message.value
    ensures message.None? && StatusPhrase(code).Some? ==> m == StatusPhrase(code).value
    ensures message.None? && StatusPhrase(code).None? ==> m == ""
  {
    match message
    case Some(text) => text
    case None =>
      match StatusPhrase(code)
      case Some(phrase) => phrase
      case None => ""
  }

  /** `api_abort(code, message, **extra)`. Python refuses a keyword given
      twice, so `extra` never names `code` or `message`. */
  function ApiAbort(code: int, message: Option<string>, extra: map<string, Json>): (r: Response)
    requires "code" !in extra && "message" !in extra
    ensures r.status == code && r.body.Fields? && r.headers == map[]
    ensures r.body.fields.Keys == extra.Keys + {"code", "message"}
    ensures r.body.fields["code"] == JInt(code)
    ensures r.body.fields["message"] == JStr(AbortMessage(code, message))
    ensures forall k :: k in extra ==> r.body.fields[k] == extra[k]
  {
    Response(code, Fields(extra["code" := JInt(code)]["message" := JStr(AbortMessage(code, message))]), map[])
  }

  /** The challenge both unauthorised responses carry. */
  const BearerChallenge: map<string, Header> := map["WWW-Authenticate" := Plain("Bearer")]

  const InvalidTokenDescription := "Either the token was expired or invalid."

  /** `invalid_token()`: 401 naming the `invalid_token` error code of
      section 3.1 of RFC 6750. */
  function InvalidToken(): (r: Response)
    ensures r.status == 401 && r.body.Fields?
    ensures r.body.fields == map[
      "code" := JInt(401), "message" := JStr("Unauthorized"),
      "error" := JStr("invalid_token"), "error_description" := JStr(InvalidTokenDescription)]
    ensures r.headers == BearerChallenge
  {
    var r := ApiAbort(401, None, map["error" := JStr("invalid_token"), "error_description" := JStr(InvalidTokenDescription)]);
    r.(headers := r.headers["WWW-Authenticate" := Plain("Bearer")])
  }

  /** `token_missing()`: a bare 401 with the default message and the
      challenge, but no error code. */
  function TokenMissing(): (r: Response)
    ensures r.status == 401 && r.body.Fields?
    ensures r.body.fields == map["code" := JInt(401), "message" := JStr("Unauthorized")]
    ensures "error" !in r.body.fields
    ensures r.headers == BearerChallenge
  {
    var r := ApiAbort(401, None, map[]);
    r.(headers := r.headers["WWW-Authenticate" := Plain("Bearer")])
  }

  /** The blueprint's handler for `ValidationError(message)`: 400 carrying
      the exception's message. */
  function ValidationError(message: string): (r: Response)
    ensures r.status == 400 && r.body.Fields? && r.headers == map[]
    ensures r.body.fields == map["code" := JInt(400), "message" := JStr(message)]
  {
    ApiAbort(400, Some(message), map[])
  }

  /** The two 401 answers can always be told apart by the `error` field. */
  lemma {:induction false} UnauthorizedResponsesDiffer()
    ensures InvalidToken() != TokenMissing()
    ensures InvalidToken().status == TokenMissing().status == 401
  {
    assert "error" in InvalidToken().body.fields;
  }
}

=== FILE: extensions.dfy ===
/** The two request-scoped callbacks of the application's extensions: the
    session user loader and the locale selector. */
module Extensions {

  import opened Optional
  import opened Text
  import opened Models

  /** What `load_user` produces: the looked-up user (possibly `None`), or
      the `ValueError` of an id `int()` cannot read. */
  datatype Loaded = Found(user: Option<User>) | BadId

  /** `load_user(user_id)`: `User.query.get(int(user_id))`. */
  function LoadUser(users: Users, userId: string): (r: Loaded)
    ensures r == BadId <==> ParseInt(userId).None?
    ensures r.Found? ==> r.user == Get(users, ParseInt(userId).value)
  {
    match ParseInt(userId)
    case None => BadId
    case Some(id) => Found(Get(users, id))
  }

  /** The session stores `str(user.id)`; loading it back finds the same row,
      and nobody once the row is gone. */
  lemma {:induction false} LoadUserRoundTrip(users: Users, id: int)
    ensures LoadUser(users, IntToString(id)) == Found(Get(users, id))
    ensures id in users ==> LoadUser(users, IntToString(id)) == Found(Some(users[id]))
    ensures id !in users ==> LoadUser(users, IntToString(id)) == Found(None)
  {
    IntToStringRoundTrip(id);
  }

  /** The locale selector: the signed-in user's own locale, else the
      `locale` cookie, else the best match of the `Accept-Language` header
      (`bestMatch`) among the configured `locales`. `current` is `None` for
      an anonymous visitor. */
  function GetLocale(current: Option<User>, cookies: map<string, string>, locales: seq<string>,
                     bestMatch: seq<string> -> Option<string>): (r: Option<string>)
    ensures current.Some? && current.value.locale.Some? ==> r == current.value.locale
    ensures (current.None? || current.value.locale.None?) && "locale" in cookies ==> r == Some(cookies["locale"])
    ensures (current.None? || current.value.locale.None?) && "locale" !in cookies ==> r == bestMatch(locales)
  {
    if current.Some? && current.value.locale.Some? then current.value.locale
    else if "locale" in cookies then Some(cookies["locale"])
    else bestMatch(locales)
  }

  /** A user who chose a locale gets it whatever the cookie and the
      `Accept-Language` header say. */
  lemma {:induction false} UserLocaleWins(user: User, cookies: map<string, string>, cookies': map<string, string>, locales: seq<string>,
                       bestMatch: seq<string> -> Option<string>, bestMatch': seq<string> -> Option<string>)
    requires user.locale.Some?
    ensures GetLocale(Some(user), cookies, locales, bestMatch) == GetLocale(Some(user), cookies', locales, bestMatch')
      == user.locale
  {
  }

  /** A user without a locale is treated exactly like an anonymous
      visitor. */
  lemma {:induction false} UnsetLocaleIsAnonymous(user: User, cookies: map<string, string>, locales: seq<string>,
                               bestMatch: seq<string> -> Option<string>)
    requires user.locale.None?
    ensures GetLocale(Some(user), cookies, locales, bestMatch) == GetLocale(None, cookies, locales, bestMatch)
  {
  }
}

=== FILE: http.dfy ===
/** Responses as the views build them with `jsonify`, `url_for` and plain
    `(body, status)` tuples, and the status reason phrases the framework
    looks up for a bare status code. */
module Http {

  import opened Optional
  import opened Models

  /** The listing and item views `url_for` can name. */
  datatype Endpoint = ItemsView | ActiveItemsView | CompletedItemsView | ItemView

  /** `url_for(endpoint, page=arg)` for a listing view, or
      `url_for('.item', item_id=arg)` for the item view. */
  datatype Url = Url(endpoint: Endpoint, arg: int)

  datatype Header = Plain(text: string) | Link(url: Url)

  /** What a response carries: nothing (`''`), a JSON object, the serialised
      item (`item_schema`), or the application's HTML error page. */
  datatype Body = NoBody | Fields(fields: map<string, Json>) | ItemDoc(id: int, item: Item) | ErrorPage

  datatype Response = Response(status: int, body: Body, headers: map<string, Header>)

  /** werkzeug's `HTTP_STATUS_CODES` table: the reason phrase of a status
      code, if the table has one. */
  function StatusPhrase(code: int): Option<string> {
    match code
    case 100 => Some("Continue")
    case 101 => Some("Switching Protocols")
    case 102 => Some("Processing")
    case 200 => Some("OK")
    case 201 => Some("Created")
    case 202 => Some("Accepted")
    case 203 => Some("Non Authoritative Information")
    case 204 => Some("No Content")
    case 205 => Some("Reset Content")
    case 206 => Some("Partial Content")
    case 207 => Some("Multi Status")
    case 208 => Some("Already Reported")
    case 226 => Some("IM Used")
    case 300 => Some("Multiple Choices")
    case 301 => Some("Moved Permanently")
    case 302 => Some("Found")
    case 303 => Some("See Other")
    case 304 => Some("Not Modified")
    case 305 => Some("Use Proxy")
    case 306 => Some("Switch Proxy")
    case 307 => Some("Temporary Redirect")
    case 308 => Some("Permanent Redirect")
    case 400 => Some("Bad Request")
    case 401 => Some("Unauthorized")
    case 402 => Some("Payment Required")
    case 403 => Some("Forbidden")
    case 404 => Some("Not Found")
    case 405 => Some("Method Not Allowed")
    case 406 => Some("Not Acceptable")
    case 407 => Some("Proxy Authentication Required")
    case 408 => Some("Request Timeout")
    case 409 => Some("Conflict")
    case 410 => Some("Gone")
    case 411 => Some("Length Required")
    case 412 => Some("Precondition Failed")
    case 413 => Some("Request Entity Too Large")
    case 414 => Some("Request URI Too Long")
    case 415 => Some("Unsupported Media Type")
    case 416 => Some("Requested Range Not Satisfiable")
    case 417 => Some("Expectation Failed")
    case 418 => Some("I'm a teapot")
    case 421 => Some("Misdirected Request")
    case 422 => Some("Unprocessable Entity")
    case 423 => Some("Locked")
    case 424 => Some("Failed Dependency")
    case 426 => Some("Upgrade Required")
    case 428 => Some("Precondition Required")
    case 429 => Some("Too Many Requests")
    case 431 => Some("Request Header Fields Too Large")
    case 449 => Some("Retry With")
    case 451 => Some("Unavailable For Legal Reasons")
    case 500 => Some("Internal Server Error")
    case 501 => Some("Not Implemented")
    case 502 => Some("Bad Gateway")
    case 503 => Some("Service Unavailable")
    case 504 => Some("Gateway Timeout")
    case 505 => Some("HTTP Version Not Supported")
    case 506 => Some("Variant Also Negotiates")
    case 507 => Some("Insufficient Storage")
    case 508 => Some("Loop Detected")
    case 510 => Some("Not Extended")
    case 511 => Some("Network Authentication Failed")
    case _ => None
  }

  /** The framework's 404 for `get_or_404`, rendered by the application's
      HTML error handler. */
  const NotFound: Response := Response(404, ErrorPage, map[])

  /** `('', 204)`. */
  const NoContent: Response := Response(204, NoBody, map[])
}

=== FILE: jwt.dfy ===
/** `TimedJsonWebToken`: a JSON Web Token whose `encode` stamps the timing
    claims of sections 4.1.4-4.1.6 of RFC 7519 and whose `decode` refuses a
    token without `exp` or past it. The HS256 signature (section 3.2 of
    RFC 7518) is a pair of functions the model does not look inside. */
module Jwt {

  import opened Optional
  import Text

  /** A claim value: JSON `null` or an integer (seconds, or a user id). */
  datatype Claim = Null | Num(n: int)

  type Claims = map<string, Claim>

  /** `TimedJsonWebToken.expiration`. */
  const DefaultExpiration: int := 3600

  /** The signing library: `sign(key, claims)` is the compact token, and
      `verify(key, token)` is the claims, or `None` for every `JoseError`
      (bad signature, malformed segments, wrong algorithm). */
  datatype Jws = Jws(sign: (string, Claims) -> string, verify: (string, string) -> Option<Claims>)

  /** Verification with the signing key recovers what was signed. */
  ghost predicate Sound(jws: Jws) {
    forall key, claims :: jws.verify(key, jws.sign(key, claims)) == Some(claims)
  }

  /** Base64url characters and the segment separator of the JWS compact
      serialization (section 7.1 of RFC 7515). */
  predicate CompactChar(c: char) {
    || ('a' <= c <= 'z') || ('A' <= c <= 'Z') || ('0' <= c <= '9')
    || c == '-' || c == '_' || c == '.'
  }

  predicate CompactToken(t: string) {
    t != [] && forall i :: 0 <= i < |t| ==> CompactChar(t[i])
  }

  /** Signing produces compact serializations. */
  ghost predicate Compact(jws: Jws) {
    forall key, claims :: CompactToken(jws.sign(key, claims))
  }

  lemma {:induction false} CompactTokenHasNoSpace(t: string)
    requires CompactToken(t)
    ensures Text.NoSpace(t) && !Text.IsSpace(t[0])
  {
  }

  /** `if not expiration: expiration = self.expiration`: `None` and `0` are
      falsy; any other integer, negative ones included, is kept. */
  function Lifetime(expiration: Option<int>): (e: int)
    ensures expiration.None? || expiration == Some(0) ==> e == DefaultExpiration
    ensures expiration.Some? && expiration.value != 0 ==> e == expiration.value
  {
    match expiration
    case None => DefaultExpiration
    case Some(x) => if x == 0 then DefaultExpiration else x
  }

  /** The payload `encode` signs: `exp`, `nbf` and `iat` overwritten, every
      other key as the caller gave it. */
  function Stamp(payload: Claims, now: int, expiration: Option<int>): (c: Claims)
    ensures c.Keys == payload.Keys + {"exp", "nbf", "iat"}
    ensures c["exp"] == Num(now + Lifetime(expiration))
    ensures c["nbf"] == Num(now) && c["iat"] == Num(now)
    ensures forall k :: k in payload && k != "exp" && k != "nbf" && k != "iat" ==> c[k] == payload[k]
  {
    payload["exp" := Num(now + Lifetime(expiration))]["nbf" := Num(now)]["iat" := Num(now)]
  }

  /** `TimedJsonWebToken.encode(header, payload, key, expiration)` with the
      clock read as `now`. */
  function Encode(jws: Jws, key: string, payload: Claims, now: int, expiration: Option<int>): (token: string)
    ensures Sound(jws) ==> jws.verify(key, token) == Some(Stamp(payload, now, expiration))
    ensures Compact(jws) ==> CompactToken(token)
  {
    jws.sign(key, Stamp(payload, now, expiration))
  }

  /** The outcomes of `TimedJsonWebToken.decode`: the library's `JoseError`,
      `InvalidTokenError`, `TokenExpireError`, or the claims. */
  datatype Decoded = SigFail | MissingExp | Expired | Valid(claims: Claims)

  /** `claim.get('exp')` is an integer. */
  predicate HasExp(c: Claims) {
    "exp" in c && c["exp"].Num?
  }

  /** The checks `decode` adds after the signature: only `exp` is read, and
      a token is expired only strictly after its `exp` second. */
  function CheckExpiry(c: Claims, now: int): (r: Decoded)
    ensures r != SigFail
    ensures r == MissingExp <==> !HasExp(c)
    ensures r == Expired <==> HasExp(c) && c["exp"].n < now
    ensures r.Valid? ==> r.claims == c
  {
    if "exp" !in c || c["exp"].Null? then MissingExp
    else if c["exp"].n < now then Expired
    else Valid(c)
  }

  /** `TimedJsonWebToken.decode(token, key)` with the clock read as `now`:
      a signature failure is reported before any claim is looked at. */
  function Decode(jws: Jws, key: string, token: string, now: int): (r: Decoded)
    ensures jws.verify(key, token).None? <==> r == SigFail
    ensures jws.verify(key, token).Some? ==> r == CheckExpiry(jws.verify(key, token).value, now)
  {
    match jws.verify(key, token)
    case None => SigFail
    case Some(c) => CheckExpiry(c, now)
  }

  /** A token with an `exp` is accepted up to and including that second. */
  lemma {:induction false} ExpiryBoundary(c: Claims, now: int)
    requires HasExp(c)
    ensures CheckExpiry(c, now).Valid? <==> now <= c["exp"].n
    ensures CheckExpiry(c, c["exp"].n) == Valid(c)
    ensures CheckExpiry(c, c["exp"].n + 1) == Expired
  {
  }

  /** Two claim sets with the same `exp` meet the same fate, whatever their
      `nbf`, `iat` or other claims say. */
  lemma {:induction false} ExpiryReadsOnlyExp(c: Claims, c': Claims, now: int)
    requires "exp" in c <==> "exp" in c'
    requires "exp" in c ==> c["exp"] == c'["exp"]
    ensures CheckExpiry(c, now).Valid? <==> CheckExpiry(c', now).Valid?
    ensures CheckExpiry(c, now) == Expired <==> CheckExpiry(c', now) == Expired
    ensures CheckExpiry(c, now) == MissingExp <==> CheckExpiry(c', now) == MissingExp
  {
  }

  /** A token valid now was valid at every earlier second. */
  lemma {:induction false} ValidEarlier(jws: Jws, key: string, token: string, now: int, earlier: int)
    requires Decode(jws, key, token, now).Valid?
    requires earlier <= now
    ensures Decode(jws, key, token, earlier) == Decode(jws, key, token, now)
  {
  }

  /** Encoding then decoding with the same key yields the stamped claims
      until `now + lifetime`, and `Expired` from the second after. */
  lemma {:induction false} EncodeDecode(jws: Jws, key: string, payload: Claims, now: int, expiration: Option<int>, later: int)
    requires Sound(jws)
    ensures var c := Stamp(payload, now, expiration);
      Decode(jws, key, Encode(jws, key, payload, now, expiration), later)
        == if later <= now + Lifetime(expiration) then Valid(c) else Expired
  {
    var c := Stamp(payload, now, expiration);
    assert jws.verify(key, jws.sign(key, c)) == Some(c);
  }
}

=== FILE: models.dfy ===
/** The persistent entities the API works on. The ORM classes themselves
    (`todoism/models.py`) are not part of this model; only the fields the
    endpoints read and write appear here. */
module Models {

  import opened Optional

  /** A scalar JSON value, as request bodies and response fields carry. */
  datatype Json = JNull | JBool(b: bool) | JInt(i: int) | JStr(s: string)

  /** A registered account: primary key, login name and preferred locale
      (`None` when the user never chose one). */
  datatype User = User(id: int, username: string, locale: Option<string>)

  /** A to-do item: its text, whether it is completed, and the id of the
      user who wrote it. */
  datatype Item = Item(body: Json, done: bool, author: int)

  /** The user table, keyed by primary key. */
  type Users = map<int, User>

  /** The item table, keyed by primary key. */
  type Store = map<int, Item>
}

=== FILE: optional.dfy ===
/** Optional values and results with an error message, used wherever the
    source returns `None` or raises an exception that the caller turns into
    a response. */
module Optional {

  /** Python's `None` versus a present value. */
  datatype Option<+T> = None | Some(value: T)

  /** A value, or the message of the exception that replaced it. */
  datatype Result<+T> = Ok(value: T) | Err(message: string)

  /** `d.get(k)` on a dictionary, and `Model.query.get(k)` on a table keyed
      by primary key: the stored value, or `None` for an absent key. */
  function Get<K, V>(m: map<K, V>, k: K): (r: Option<V>)
    ensures r.Some? <==> k in m
    ensures r.Some? ==> r.value == m[k]
  {
    if k in m then Some(m[k]) else None
  }
}

=== FILE: resources.dfy ===
/** The decisions of the v1 resource views: the password-grant token
    exchange (section 4.3 of RFC 6749), item-body validation, the
    per-item ownership gate with its put/patch/delete effects, item
    creation, clearing completed items, and the pagination links. The
    views run behind `auth_required`, so each receives the authenticated
    user. */
module Resources {

  import opened Optional
  import opened Text
  import opened Models
  import opened Http
  import opened Jwt
  import Errors
  import Auth

  /** A view's answer together with the item table after it committed. */
  datatype Outcome = Outcome(response: Response, store: Store)

  // ---------------------------------------------------------------- bodies

  /** Python's `str(value)`. */
  function PyStr(j: Json): (r: string)
    ensures j.JStr? ==> r == j.s
    ensures !j.JStr? ==> r != [] && NoSpace(r)
  {
    match j
    case JNull => "None"
    case JBool(b) => if b then "True" else "False"
    case JInt(i) => IntToString(i)
    case JStr(s) => s
  }

  const EmptyBodyMessage := "The item body was empty or invalid."

  /** `get_item_body()` on the request's JSON object: the `body` value
      unchanged, or the `ValidationError` for a missing, `null` or blank
      one. */
  function GetItemBody(data: map<string, Json>): (r: Result<Json>)
    ensures r.Ok? <==> "body" in data && data["body"] != JNull && Strip(PyStr(data["body"])) != ""
    ensures r.Ok? ==> r.value == data["body"]
    ensures r.Err? ==> r.message == EmptyBodyMessage
  {
    if "body" !in data || data["body"] == JNull || Strip(PyStr(data["body"])) == "" then Err(EmptyBodyMessage)
    else Ok(data["body"])
  }

  /** Only an absent body, `null`, or a string of whitespace is refused:
      numbers and booleans print as non-blank text. */
  lemma {:induction false} GetItemBodyRefuses(data: map<string, Json>)
    ensures GetItemBody(data).Err? <==>
      "body" !in data || data["body"] == JNull || (data["body"].JStr? && AllSpace(data["body"].s))
  {
    if "body" in data && data["body"].JInt? {
      var s := IntToString(data["body"].i);
      assert !IsSpace(s[0]);
    }
    if "body" in data && data["body"].JBool? {
      assert !IsSpace(PyStr(data["body"])[0]);
    }
  }

  // -------------------------------------------------------- token exchange

  const GrantMessage := "The grant type must be password"
  const CredentialsMessage := "Either the username or password was invalid."

  /** `grant_type` is present and reads `password` in any case. */
  predicate PasswordGrant(form: map<string, string>) {
    "grant_type" in form && Lower(form["grant_type"]) == "password"
  }

  /** The user the form's credentials identify: `findUser` is the username
      query and `passwordOk` is `User.validate_password`. */
  function Authenticate(form: map<string, string>, findUser: Option<string> -> Option<User>,
                        passwordOk: (User, Option<string>) -> bool): (r: Option<User>)
    ensures r.Some? <==>
      (findUser(Get(form, "username")).Some? &&
       passwordOk(findUser(Get(form, "username")).value, Get(form, "password")))
    ensures r.Some? ==> r == findUser(Get(form, "username"))
  {
    var user := findUser(Get(form, "username"));
    if user.Some? && passwordOk(user.value, Get(form, "password")) then user else None
  }

  /** The headers of section 5.1 of RFC 6749 on a response carrying a
      credential. */
  const NoCaching: map<string, Header> := map["Cache-Control" := Plain("no-store"), "Pragma" := Plain("no-cache")]

  /** `AuthTokenAPI.post` on a form submitted at second `now`. */
  function ExchangeToken(jws: Jws, key: string, form: map<string, string>,
                         findUser: Option<string> -> Option<User>,
                         passwordOk: (User, Option<string>) -> bool, now: int): (r: Response)
    ensures !PasswordGrant(form) ==> r == Errors.ApiAbort(400, Some(GrantMessage), map[])
    ensures PasswordGrant(form) && Authenticate(form, findUser, passwordOk).None? ==>
      r == Errors.ApiAbort(400, Some(CredentialsMessage), map[])
    ensures r.status == 200 <==> PasswordGrant(form) && Authenticate(form, findUser, passwordOk).Some?
    ensures r.status == 200 ==>
      var user := Authenticate(form, findUser, passwordOk).value;
      && r.headers == NoCaching
      && r.body == Fields(map[
           "access_token" := JStr(Auth.GenerateToken(jws, key, user, now).token),
           "token_type" := JStr("Bearer"),
           "expires_in" := JInt(DefaultExpiration)])
  {
    if !PasswordGrant(form) then Errors.ApiAbort(400, Some(GrantMessage), map[])
    else match Authenticate(form, findUser, passwordOk)
      case None => Errors.ApiAbort(400, Some(CredentialsMessage), map[])
      case Some(user) =>
        var issued := Auth.GenerateToken(jws, key, user, now);
        Response(200, Fields(map[
          "access_token" := JStr(issued.token),
          "token_type" := JStr("Bearer"),
          "expires_in" := JInt(issued.expiresIn)]), NoCaching)
  }

  /** The grant type is checked before anything else: with a wrong one the
      answer depends neither on the user table, nor on the password check,
      nor on the signer. */
  lemma {:induction false} GrantCheckedFirst(jws: Jws, jws': Jws, key: string, form: map<string, string>,
                          findUser: Option<string> -> Option<User>, findUser': Option<string> -> Option<User>,
                          passwordOk: (User, Option<string>) -> bool, passwordOk': (User, Option<string>) -> bool,
                          now: int)
    requires !PasswordGrant(form)
    ensures ExchangeToken(jws, key, form, findUser, passwordOk, now)
         == ExchangeToken(jws', key, form, findUser', passwordOk', now)
    ensures ExchangeToken(jws, key, form, findUser, passwordOk, now).status == 400
  {
  }

  /** An unknown username and a wrong password get the same answer, and no
      token is signed for either. */
  lemma {:induction false} BadCredentialsIndistinguishable(jws: Jws, jws': Jws, key: string, form: map<string, string>,
                                        findUser: Option<string> -> Option<User>,
                                        passwordOk: (User, Option<string>) -> bool, now: int)
    requires PasswordGrant(form)
    requires findUser(Get(form, "username")).None? ||
      !passwordOk(findUser(Get(form, "username")).value, Get(form, "password"))
    ensures ExchangeToken(jws, key, form, findUser, passwordOk, now)
         == ExchangeToken(jws', key, form, findUser, passwordOk, now)
         == Errors.ApiAbort(400, Some(CredentialsMessage), map[])
  {
  }

  /** The `access_token` of a successful exchange, sent back as a bearer
      credential within the hour, passes `auth_required` as the user whose
      credentials were checked. */
  lemma {:induction false} ExchangedTokenAdmits(jws: Jws, key: string, users: Users, form: map<string, string>,
                             findUser: Option<string> -> Option<User>,
                             passwordOk: (User, Option<string>) -> bool,
                             verb: string, now: int, later: int)
    requires Sound(jws) && Compact(jws)
    requires PasswordGrant(form) && Authenticate(form, findUser, passwordOk).Some?
    requires Authenticate(form, findUser, passwordOk).value.id in users
    requires verb != "OPTIONS"
    requires later <= now + DefaultExpiration
    ensures var r := ExchangeToken(jws, key, form, findUser, passwordOk, now);
      var user := Authenticate(form, findUser, passwordOk).value;
      && r.body.Fields? && "access_token" in r.body.fields && r.body.fields["access_token"].JStr?
      && Auth.Gate(jws, key, users, verb, Some(Auth.BearerHeader(r.body.fields["access_token"].s)), later)
           == Auth.Proceed(Some(users[user.id]))
  {
    var user := Authenticate(form, findUser, passwordOk).value;
    Auth.GateAdmitsIssuedToken(jws, key, users, user, verb, now, later);
  }

  // ----------------------------------------------------------------- items

  /** The item exists and `current` wrote it. */
  predicate Owns(store: Store, current: User, id: int) {
    id in store && store[id].author == current.id
  }

  /** `api_abort(403)`. */
  function Forbidden(): (r: Response)
    ensures r.status == 403
    ensures r.body == Fields(map["code" := JInt(403), "message" := JStr("Forbidden")])
  {
    Errors.ApiAbort(403, None, map[])
  }

  /** `ItemAPI.get`. */
  function GetItem(store: Store, current: User, id: int): (r: Response)
    ensures id !in store ==> r == NotFound
    ensures id in store && !Owns(store, current, id) ==> r == Forbidden()
    ensures Owns(store, current, id) ==> r == Response(200, ItemDoc(id, store[id]), map[])
  {
    if id !in store then NotFound
    else if store[id].author != current.id then Forbidden()
    else Response(200, ItemDoc(id, store[id]), map[])
  }

  /** `ItemAPI.put`: the author replaces the body; the ownership check
      comes before the body is read. */
  function PutItem(store: Store, current: User, id: int, data: map<string, Json>): (o: Outcome)
    ensures id !in store ==> o == Outcome(NotFound, store)
    ensures id in store && !Owns(store, current, id) ==> o == Outcome(Forbidden(), store)
    ensures Owns(store, current, id) && GetItemBody(data).Err? ==>
      o == Outcome(Errors.ValidationError(EmptyBodyMessage), store)
    ensures Owns(store, current, id) && GetItemBody(data).Ok? ==>
      && o.response == NoContent
      && o.store.Keys == store.Keys
      && o.store[id] == Item(GetItemBody(data).value, store[id].done, store[id].author)
      && forall k :: k in store && k != id ==> o.store[k] == store[k]
  {
    if id !in store then Outcome(NotFound, store)
    else if store[id].author != current.id then Outcome(Forbidden(), store)
    else match GetItemBody(data)
      case Err(message) => Outcome(Errors.ValidationError(message), store)
      case Ok(body) => Outcome(NoContent, store[id := store[id].(body := body)])
  }

  /** `ItemAPI.patch`: the author toggles `done`. */
  function PatchItem(store: Store, current: User, id: int): (o: Outcome)
    ensures id !in store ==> o == Outcome(NotFound, store)
    ensures id in store && !Owns(store, current, id) ==> o == Outcome(Forbidden(), store)
    ensures Owns(store, current, id) ==>
      && o.response == NoContent
      && o.store.Keys == store.Keys
      && o.store[id] == Item(store[id].body, !store[id].done, store[id].author)
      && forall k :: k in store && k != id ==> o.store[k] == store[k]
  {
    if id !in store then Outcome(NotFound, store)
    else if store[id].author != current.id then Outcome(Forbidden(), store)
    else Outcome(NoContent, store[id := store[id].(done := !store[id].done)])
  }

  /** Toggling twice restores the table, whoever asks. */
  lemma {:induction false} PatchTwiceRestores(store: Store, current: User, id: int)
    ensures PatchItem(PatchItem(store, current, id).store, current, id).store == store
  {
    if Owns(store, current, id) {
      var once := PatchItem(store, current, id).store;
      assert Owns(once, current, id);
      var twice := PatchItem(once, current, id).store;
      assert twice[id] == store[id];
      assert forall k :: k in twice <==> k in store;
    }
  }

  /** `ItemAPI.delete`: the author removes the item. */
  function DeleteItem(store: Store, current: User, id: int): (o: Outcome)
    ensures id !in store ==> o == Outcome(NotFound, store)
    ensures id in store && !Owns(store, current, id) ==> o == Outcome(Forbidden(), store)
    ensures Owns(store, current, id) ==>
      && o.response == NoContent
      && o.store.Keys == store.Keys - {id}
      && forall k :: k in o.store ==> o.store[k] == store[k]
  {
    if id !in store then Outcome(NotFound, store)
    else if store[id].author != current.id then Outcome(Forbidden(), store)
    else Outcome(NoContent, store - {id})
  }

  /** Whatever the method, a caller who did not write the item is turned
      away and the table is left as it was. */
  lemma {:induction false} NonAuthorChangesNothing(store: Store, current: User, id: int, data: map<string, Json>)
    requires id in store && store[id].author != current.id
    ensures GetItem(store, current, id).status == 403
    ensures PutItem(store, current, id, data) == Outcome(Forbidden(), store)
    ensures PatchItem(store, current, id) == Outcome(Forbidden(), store)
    ensures DeleteItem(store, current, id) == Outcome(Forbidden(), store)
  {
  }

  /** A new item is not yet done. */
  const NewItemDone := false

  /** `ItemsAPI.post`: the item the database stores under the fresh key
      `newId`, answered with 201 and a `Location` pointing at it. */
  function CreateItem(store: Store, current: User, data: map<string, Json>, newId: int): (o: Outcome)
    requires newId !in store
    ensures GetItemBody(data).Err? ==> o == Outcome(Errors.ValidationError(EmptyBodyMessage), store)
    ensures GetItemBody(data).Ok? ==>
      var item := Item(GetItemBody(data).value, NewItemDone, current.id);
      && o.store.Keys == store.Keys + {newId}
      && o.store[newId] == item
      && (forall k :: k in store ==> o.store[k] == store[k])
      && o.response == Response(201, ItemDoc(newId, item), map["Location" := Link(Url(ItemView, newId))])
  {
    match GetItemBody(data)
    case Err(message) => Outcome(Errors.ValidationError(message), store)
    case Ok(body) =>
      var item := Item(body, NewItemDone, current.id);
      Outcome(Response(201, ItemDoc(newId, item), map["Location" := Link(Url(ItemView, newId))]), store[newId := item])
  }

  /** An item `CompletedItemsAPI.delete` removes for `current`. */
  predicate Completed(store: Store, current: User, id: int) {
    Owns(store, current, id) && store[id].done
  }

  /** `CompletedItemsAPI.delete`: exactly the caller's done items go; other
      users' items and the caller's active ones stay as they were. */
  function ClearCompleted(store: Store, current: User): (o: Outcome)
    ensures o.response == NoContent
    ensures forall id :: id in o.store <==> id in store && !Completed(store, current, id)
    ensures forall id :: id in o.store ==> o.store[id] == store[id]
  {
    Outcome(NoContent, map id | id in store && !Completed(store, current, id) :: store[id])
  }

  /** Clearing twice is clearing once. */
  lemma {:induction false} ClearCompletedIdempotent(store: Store, current: User)
    ensures ClearCompleted(ClearCompleted(store, current).store, current) == ClearCompleted(store, current)
  {
    var once := ClearCompleted(store, current).store;
    var twice := ClearCompleted(once, current).store;
    assert forall id :: id in twice <==> id in once;
  }

  /** The view's loop: fetch the caller's done items, delete them one by
      one, commit. */
  method ClearCompletedLoop(store: Store, current: User) returns (result: Store)
    ensures result == ClearCompleted(store, current).store
  {
    var pending := set id | id in store && Completed(store, current, id);
    result := store;
    while pending != {}
      invariant pending <= result.Keys
      invariant forall id :: id in pending ==> Completed(store, current, id)
      invariant forall id :: id in result <==> id in store && (id in pending || !Completed(store, current, id))
      invariant forall id :: id in result ==> result[id] == store[id]
      decreases pending
    {
      var id :| id in pending;
      result := result - {id};
      pending := pending - {id};
    }
    var cleared := ClearCompleted(store, current).store;
    assert pending == {};
    forall id
      ensures id in result <==> id in cleared
    {
      assert id !in pending;
    }
    assert result.Keys == cleared.Keys;
  }

  // ------------------------------------------------------------ pagination

  /** The `current`/`prev`/`next` links of a listing page. */
  datatype Links = Links(current: Url, prev: Option<Url>, next: Option<Url>)

  /** The links as the three listing views build them: every one of them
      passes `.items` to `url_for`. */
  function PageLinksAsWritten(view: Endpoint, page: int, hasPrev: bool, hasNext: bool): (l: Links)
    ensures l.current == Url(ItemsView, page)
    ensures l.prev.Some? <==> hasPrev
    ensures l.next.Some? <==> hasNext
    ensures hasPrev ==> l.prev.value == Url(ItemsView, page - 1)
    ensures hasNext ==> l.next.value == Url(ItemsView, page + 1)
  {
    Links(Url(ItemsView, page),
          if hasPrev then Some(Url(ItemsView, page - 1)) else None,
          if hasNext then Some(Url(ItemsView, page + 1)) else None)
  }

  /** For the active-items listing the links as written lead to the
      all-items listing. */
  lemma {:induction false} ActiveLinksLeaveView()
    ensures PageLinksAsWritten(ActiveItemsView, 1, false, true).next == Some(Url(ItemsView, 2))
    ensures PageLinksAsWritten(ActiveItemsView, 1, false, true).next != Some(Url(ActiveItemsView, 2))
    ensures PageLinksAsWritten(CompletedItemsView, 2, true, false).prev != Some(Url(CompletedItemsView, 1))
  {
  }

  /** The links of page `page` of listing `view`: `prev` exactly when there
      is a previous page and pointing at it, `next` likewise, all on the
      listing being paged. */
  function PageLinks(view: Endpoint, page: int, hasPrev: bool, hasNext: bool): (l: Links)
    ensures l.current == Url(view, page)
    ensures l.prev.Some? <==> hasPrev
    ensures l.next.Some? <==> hasNext
    ensures hasPrev ==> l.prev.value == Url(view, page - 1)
    ensures hasNext ==> l.next.value == Url(view, page + 1)
  {
    Links(Url(view, page),
          if hasPrev then Some(Url(view, page - 1)) else None,
          if hasNext then Some(Url(view, page + 1)) else None)
  }

  /** The written links agree with the intended ones on the all-items
      listing only. */
  lemma {:induction false} AsWrittenAgreesOnItems(view: Endpoint, page: int, hasPrev: bool, hasNext: bool)
    ensures view == ItemsView ==> PageLinksAsWritten(view, page, hasPrev, hasNext) == PageLinks(view, page, hasPrev, hasNext)
    ensures view != ItemsView ==> PageLinksAsWritten(view, page, hasPrev, hasNext).current != PageLinks(view, page, hasPrev, hasNext).current
  {
  }

  /** The pages a client visits by following `next` links, endpoint and
      page both, from page `page` of listing `view` until there is none,
      where `has_prev` and `has_next` are Flask-SQLAlchemy's `page > 1` and
      `page < pages`: every later page of that same listing, once each and
      in order. */
  function NextChain(view: Endpoint, page: int, pages: int): (r: seq<Url>)
    requires 1 <= page <= pages
    ensures |r| == pages - page + 1
    ensures forall i :: 0 <= i < |r| ==> r[i] == Url(view, page + i)
    decreases pages - page
  {
    var l := PageLinks(view, page, page > 1, page < pages);
    match l.next
    case None => [l.current]
    case Some(u) => [l.current] + NextChain(u.endpoint, u.arg, pages)
  }
}

=== FILE: text.dfy ===
/** The pieces of Python's `str` behaviour that the request gate, the item
    validation and the session loader depend on: `isspace`, `split(None, 1)`,
    `strip()`, `lower()` on ASCII letters, and `str()`/`int()` on integers. */
module Text {

  import opened Optional

  /** Python's `str.isspace`, the whitespace that `split()` and `strip()`
      without arguments use. */
  predicate IsSpace(c: char) {
    var n := c as int;
    || (9 <= n <= 13) || (28 <= n <= 32) || n == 0x85 || n == 0xA0
    || n == 0x1680 || (0x2000 <= n <= 0x200A) || n == 0x2028 || n == 0x2029
    || n == 0x202F || n == 0x205F || n == 0x3000
  }

  predicate AllSpace(s: string) {
    forall i :: 0 <= i < |s| ==> IsSpace(s[i])
  }

  predicate NoSpace(s: string) {
    forall i :: 0 <= i < |s| ==> !IsSpace(s[i])
  }

  /** The end of the run that starts at `i` of characters that are
      whitespace when `space` holds and non-whitespace otherwise:
      `Span(s, 0, true)` is how much `s.lstrip()` removes. */
  function Span(s: string, i: nat, space: bool): (j: nat)
    requires i <= |s|
    ensures i <= j <= |s|
    ensures forall k :: i <= k < j ==> IsSpace(s[k]) == space
    ensures j == |s| || IsSpace(s[j]) != space
    decreases |s| - i
  {
    if i < |s| && IsSpace(s[i]) == space then Span(s, i + 1, space) else i
  }

  /** The number of whitespace characters `s.rstrip()` removes. */
  function TrailingSpaces(s: string): (n: nat)
    ensures n <= |s|
    ensures forall i :: |s| - n <= i < |s| ==> IsSpace(s[i])
    ensures n == |s| || !IsSpace(s[|s| - 1 - n])
  {
    if s != [] && IsSpace(s[|s| - 1]) then 1 + TrailingSpaces(s[..|s| - 1]) else 0
  }

  /** `r` is `s` with a whitespace prefix and a whitespace suffix cut off. */
  ghost predicate TrimOf(s: string, r: string) {
    exists a, b :: 0 <= a <= b <= |s| && r == s[a..b] && AllSpace(s[..a]) && AllSpace(s[b..])
  }

  /** `s.strip()`: `s` without its leading and trailing whitespace, so empty
      exactly when `s` is blank, and otherwise neither starting nor ending
      with whitespace. */
  function Strip(s: string): (r: string)
    ensures TrimOf(s, r)
    ensures r == [] <==> AllSpace(s)
    ensures r != [] ==> !IsSpace(r[0]) && !IsSpace(r[|r| - 1])
  {
    var a := Span(s, 0, true);
    assert AllSpace(s[..a]) by {
      forall i | 0 <= i < a ensures IsSpace(s[..a][i]) { assert s[..a][i] == s[i]; }
    }
    if a == |s| then
      assert s[a..a] == [] && s[a..] == [];
      []
    else
      var z := TrailingSpaces(s);
      assert !IsSpace(s[a]);
      var b := |s| - z;
      assert AllSpace(s[b..]) by {
        forall i | 0 <= i < z ensures IsSpace(s[b..][i]) { assert s[b..][i] == s[b + i]; }
      }
      s[a..b]
  }

  /** `s.split(None, 1)`: leading whitespace is skipped, the first word is
      cut at the next whitespace run, and the rest after that run is kept
      verbatim, trailing whitespace included. */
  function SplitOnce(s: string): (r: seq<string>)
    ensures |r| <= 2
    ensures forall i :: 0 <= i < |r| ==> r[i] != []
    ensures |r| == 0 <==> AllSpace(s)
    ensures |r| >= 1 ==> NoSpace(r[0])
    ensures |r| == 2 ==> !IsSpace(r[1][0])
  {
    var a := Span(s, 0, true);
    if a == |s| then []
    else
      var b := Span(s, a, false);
      var c := Span(s, b, true);
      if c == |s| then [s[a..b]] else [s[a..b], s[c..]]
  }

  ghost predicate Separates(s: string, p: string, w: string, q: string, t: string) {
    && AllSpace(p) && w != [] && NoSpace(w) && AllSpace(q) && q != []
    && t != [] && !IsSpace(t[0]) && s == p + w + q + t
  }
  ghost predicate WordThenRest(s: string, w: string, t: string) {
    exists p, q :: Separates(s, p, w, q, t)
  }
  lemma {:induction false} SpanExact(s: string, i: nat, j: nat, space: bool)
    requires i <= j <= |s|
    requires forall k :: i <= k < j ==> IsSpace(s[k]) == space
    requires j == |s| || IsSpace(s[j]) != space
    ensures Span(s, i, space) == j
  {
    var n := Span(s, i, space);
    assert n == |s| || IsSpace(s[n]) != space;
    assert j == |s| || IsSpace(s[j]) != space;
  }

  lemma {:induction false} SeparatesAt(s: string, a: nat, b: nat, c: nat)
    requires a < b < c < |s|
    requires forall i :: 0 <= i < a ==> IsSpace(s[i])
    requires forall i :: a <= i < b ==> !IsSpace(s[i])
    requires forall i :: b <= i < c ==> IsSpace(s[i])
    requires !IsSpace(s[c])
    ensures Separates(s, s[..a], s[a..b], s[b..c], s[c..])
  {
    assert s == s[..a] + s[a..b] + s[b..c] + s[c..];
  }

  lemma {:induction false} SplitOnceTwoPartsSeparates(s: string)
    requires |SplitOnce(s)| == 2
    ensures WordThenRest(s, SplitOnce(s)[0], SplitOnce(s)[1])
  {
    var a := Span(s, 0, true);
    var b := Span(s, a, false);
    var c := Span(s, b, true);
    SeparatesAt(s, a, b, c);
  }

  lemma {:induction false} SplitOnceAt(s: string, a: nat, b: nat, c: nat)
    requires a < b < c < |s|
    requires forall i :: 0 <= i < a ==> IsSpace(s[i])
    requires forall i :: a <= i < b ==> !IsSpace(s[i])
    requires forall i :: b <= i < c ==> IsSpace(s[i])
    requires !IsSpace(s[c])
    ensures SplitOnce(s) == [s[a..b], s[c..]]
  {
    SpanExact(s, 0, a, true);
    SpanExact(s, a, b, false);
    SpanExact(s, b, c, true);
  }

  lemma {:induction false} SeparatesAtIndices(s: string, p: string, w: string, q: string, t: string)
    requires Separates(s, p, w, q, t)
    ensures forall i :: 0 <= i < |p| ==> IsSpace(s[i])
    ensures forall i :: |p| <= i < |p| + |w| ==> !IsSpace(s[i])
    ensures forall i :: |p| + |w| <= i < |p| + |w| + |q| ==> IsSpace(s[i])
    ensures |p| + |w| + |q| < |s| && !IsSpace(s[|p| + |w| + |q|])
    ensures s[|p|..|p| + |w|] == w && s[|p| + |w| + |q|..] == t
  {
    forall i | |p| <= i < |p| + |w| ensures !IsSpace(s[i]) { assert s[i] == w[i - |p|]; }
    forall i | |p| + |w| <= i < |p| + |w| + |q| ensures IsSpace(s[i]) { assert s[i] == q[i - |p| - |w|]; }
    assert s[|p| + |w| + |q|] == t[0];
  }

  lemma {:induction false} SeparatesSplitOnce(s: string, p: string, w: string, q: string, t: string)
    requires Separates(s, p, w, q, t)
    ensures SplitOnce(s) == [w, t]
  {
    SeparatesAtIndices(s, p, w, q, t);
    SplitOnceAt(s, |p|, |p| + |w|, |p| + |w| + |q|);
  }

  /** `split(None, 1)` yields two parts exactly when the input is a word,
      whitespace, and a non-blank rest, and the parts are that word and that
      rest. */
  lemma {:induction false} SplitOnceTwoParts(s: string, w: string, t: string)
    ensures SplitOnce(s) == [w, t] <==> WordThenRest(s, w, t)
  {
    if SplitOnce(s) == [w, t] {
      SplitOnceTwoPartsSeparates(s);
    }
    if WordThenRest(s, w, t) {
      var p, q :| Separates(s, p, w, q, t);
      SeparatesSplitOnce(s, p, w, q, t);
    }
  }

  /** ASCII lowercasing; every other character is left alone. */
  function LowerChar(c: char): char {
    if 'A' <= c <= 'Z' then (c as int + 32) as char else c
  }

  function UpperChar(c: char): char {
    if 'a' <= c <= 'z' then (c as int - 32) as char else c
  }

  /** `s.lower()` on the ASCII letters. */
  function Lower(s: string): (r: string)
    ensures |r| == |s|
    ensures forall i :: 0 <= i < |s| ==> r[i] == LowerChar(s[i])
  {
    if s == [] then [] else [LowerChar(s[0])] + Lower(s[1..])
  }

  /** Comparing `s.lower()` against a lower-case ASCII word accepts exactly
      the spellings of that word with any letter in either case. */
  lemma {:induction false} LowerMatchesEitherCase(s: string, word: string)
    requires forall i :: 0 <= i < |word| ==> 'a' <= word[i] <= 'z'
    ensures Lower(s) == word <==>
      |s| == |word| && forall i :: 0 <= i < |s| ==> s[i] == word[i] || s[i] == UpperChar(word[i])
  {
    if Lower(s) == word {
      forall i | 0 <= i < |s|
        ensures s[i] == word[i] || s[i] == UpperChar(word[i])
      {
        assert LowerChar(s[i]) == word[i];
      }
    }
    if |s| == |word| && forall i :: 0 <= i < |s| ==> s[i] == word[i] || s[i] == UpperChar(word[i]) {
      forall i | 0 <= i < |s|
        ensures Lower(s)[i] == word[i]
      {
        assert LowerChar(s[i]) == word[i];
      }
    }
  }

  predicate IsDigit(c: char) {
    '0' <= c <= '9'
  }

  predicate AllDigits(s: string) {
    forall i :: 0 <= i < |s| ==> IsDigit(s[i])
  }

  function DigitChar(d: nat): (c: char)
    requires d < 10
    ensures IsDigit(c)
  {
    ('0' as int + d) as char
  }

  /** Python's `str(n)` for a natural number: decimal, no leading zeros. */
  function NatToString(n: nat): (r: string)
    ensures r != [] && AllDigits(r)
    decreases n
  {
    if n < 10 then [DigitChar(n)] else NatToString(n / 10) + [DigitChar(n % 10)]
  }

  /** Python's `str(i)` for an integer. */
  function IntToString(i: int): (r: string)
    ensures r != [] && NoSpace(r)
  {
    if i < 0 then "-" + NatToString(-i) else NatToString(i)
  }

  /** The value of a string of decimal digits. */
  function DigitsValue(s: string): nat
    requires AllDigits(s)
  {
    if s == [] then 0
    else DigitsValue(s[..|s| - 1]) * 10 + (s[|s| - 1] as int - '0' as int)
  }

  lemma {:induction false} NatToStringRoundTrip(n: nat)
    ensures DigitsValue(NatToString(n)) == n
    decreases n
  {
    if n >= 10 {
      var s := NatToString(n);
      assert s[..|s| - 1] == NatToString(n / 10);
      NatToStringRoundTrip(n / 10);
    }
  }

  predicate DigitOrUnderscore(c: char) {
    IsDigit(c) || c == '_'
  }

  /** Digits with single underscores between them, as `int()` accepts. */
  predicate DigitGroups(s: string) {
    && s != [] && IsDigit(s[0])
    && (forall i :: 0 <= i < |s| ==> DigitOrUnderscore(s[i]))
    && (forall i :: 0 < i < |s| && s[i - 1] == '_' ==> IsDigit(s[i]))
    && s[|s| - 1] != '_'
  }

  function DropUnderscores(s: string): (r: string)
    requires forall i :: 0 <= i < |s| ==> DigitOrUnderscore(s[i])
    ensures AllDigits(r)
    ensures AllDigits(s) ==> r == s
  {
    if s == [] then []
    else if s[0] == '_' then DropUnderscores(s[1..])
    else
      var rest := DropUnderscores(s[1..]);
      assert DigitOrUnderscore(s[0]);
      assert AllDigits(s) ==> AllDigits(s[1..]);
      assert forall i :: 0 < i < |rest| + 1 ==> ([s[0]] + rest)[i] == rest[i - 1];
      assert AllDigits(s) ==> [s[0]] + s[1..] == s;
      [s[0]] + rest
  }

  /** The information separators U+001C to U+001F: `isspace` accepts them,
      but `int()` never skips them. It skips only ASCII whitespace and the
      non-ASCII `isspace` characters, which it turns into spaces first. */
  predicate IsSeparator(c: char) {
    0x1C <= c as int <= 0x1F
  }

  /** A string holding a separator, which `int()` refuses whatever else it
      holds. */
  predicate HasSeparator(s: string) {
    exists i :: 0 <= i < |s| && IsSeparator(s[i])
  }

  /** Python's `int(s)` for base ten on ASCII digits: surrounding whitespace,
      an optional sign, and digit groups separated by single underscores;
      `None` where Python raises `ValueError`. */
  function ParseInt(s: string): (r: Option<int>)
    ensures AllSpace(s) ==> r.None?
    ensures HasSeparator(s) ==> r.None?
    ensures r.Some? && r.value < 0 ==> Strip(s)[0] == '-'
  {
    if HasSeparator(s) then None
    else
      var t := Strip(s);
      if t == [] then None
      else
        var sign := if t[0] == '-' then -1 else 1;
        var digits := if t[0] == '-' || t[0] == '+' then t[1..] else t;
        if DigitGroups(digits) then Some(sign * DigitsValue(DropUnderscores(digits)))
        else None
  }

  /** U+001C is refused even beside a non-ASCII character, while the
      non-ASCII space U+3000 is skipped like any other whitespace. */
  lemma {:induction false} SeparatorRefusedBesideUnicode()
    ensures ParseInt(['\U{1C}', '5']) == None
    ensures ParseInt(['\U{1C}', '5', '\U{3000}']) == None
    ensures ParseInt(['\U{3000}', '5']) == Some(5)
  {
    assert IsSeparator(['\U{1C}', '5'][0]);
    assert IsSeparator(['\U{1C}', '5', '\U{3000}'][0]);
    var s := ['\U{3000}', '5'];
    assert !IsSeparator(s[0]) && !IsSeparator(s[1]);
    SpanExact(s, 0, 1, true);
    assert TrailingSpaces(s) == 0;
    assert Strip(s) == ['5'];
  }

  lemma {:induction false} StripKeepsTrimmed(s: string)
    requires s != [] && NoSpace(s)
    ensures Strip(s) == s
  {
    assert Span(s, 0, true) == 0;
    assert TrailingSpaces(s) == 0;
  }

  /** `int()` reads a plain digit string as its decimal value. */
  lemma {:induction false} ParseDigits(s: string)
    requires s != [] && AllDigits(s)
    ensures DigitGroups(s)
    ensures DropUnderscores(s) == s
  {
  }

  /** `int(str(i)) == i`. */
  lemma {:induction false} IntToStringRoundTrip(i: int)
    ensures ParseInt(IntToString(i)) == Some(i)
  {
    var s := IntToString(i);
    StripKeepsTrimmed(s);
    var n: nat := if i < 0 then -i else i;
    var digits := NatToString(n);
    NatToStringRoundTrip(n);
    ParseDigits(digits);
    if i < 0 {
      assert s[0] == '-' && s[1..] == digits;
    } else {
      assert s == digits && s[0] != '-' && s[0] != '+';
    }
  }
}
